=== FILE: README.md ===
# grit-find search pipeline, modelled in Dafny

grit-find is a command-line tool that searches GitHub's public repositories,
lets the user page through the results and pick a repository, then downloads
an asset of that repository's latest release. This project models the
search-and-page core of `src/main.rs` as pure functions over immutable data.
The network and the file system are replaced by oracles.

- **Release filter** (`release_filter.dfy`). Each repository of a search
  page is probed for a latest release. Only the repositories whose probe
  succeeds are kept, in their original order. The probe is an oracle
  `hasRelease: string -> bool`.
- **Rate-limited fetch** (`rate_limit.dfy`). `fetch_repos_page` is a bounded
  retry loop over the replies of an oracle `search(request, attempt)`.
  - A 429 reply waits for the `retry-after` header read as a `u64`, or for 5
    seconds when the header is missing or unusable. It then retries while
    fewer than 3 requests have been sent.
  - The third 429 falls through to `error_for_status` and fails.
  - Any other 4xx or 5xx status fails at once.
  - Sleeping is not modelled; each wait is recorded in a trace.
- **Result cache** (`result_cache.dfy`). The cache maps each exact query
  string to its fetched pages (by page number) and an exhaustion flag.
  - The cache file is abstract: no cache directory, missing, unreadable,
    corrupt, or holding a cache.
  - Writing the file either succeeds or fails before or after the file is
    truncated.
- **`search_repos`** (`search.dfy`).
  - It first clamps the page size to 1..100 and the page to at least 1.
  - It then answers from the cache when it can.
  - Otherwise it fetches the page, records it, and rewrites the whole cache.
- **The paging prompt** (`navigation.dfy`, `session.dfy`). One turn trims
  the answer and compares it without ASCII case. `n`, `p` and `c` move to the
  next page, move to the previous page (never below 1) or cancel. A number
  from 1 to the number shown selects that repository. Anything else is refused.
  `Session.Run` drives the loop of `main` over a given sequence of answers,
  up to the selected repository.
- Supporting modules: `wrappers.dfy` (`Option`, `Result`), `domain.dfy`
  (`Repo`, `Error`), `decimal.dfy` (Rust's `str::parse` for unsigned
  integers) and `text.dfy` (`str::trim`, `eq_ignore_ascii_case`).

Three behaviours of the code look unintended. The model keeps each of them as
written, and proves what it does:

- **Exhaustion test** (src/main.rs:250). Once `fully_fetched` is set, the
  code answers an uncached page with the empty sequence when
  `page > entry.pages.len()`. The flag means "there are no further pages",
  so the evident intent is to answer pages past the last fetched one. The
  test, however, compares with the number of cached pages, not with the
  highest cached page number.
  - `ResultCache.BeyondHighestPageExhausted` shows that pages past the
    highest cached page are answered as intended when every cached page
    number is at least 1.
  - `ResultCache.GapBelowShortPageReadsEmpty` shows the extra case. Suppose
    a run started at page 3 (`--page 3`) and got a short page. Page 2 then
    reads as empty without being fetched, and the loop ends with "No more
    results."
- **Start page 0** (src/main.rs:37, 105, 111). The `--page` help text calls
  the option a 1-based page, and `max(1)` turns 0 into page 1. The empty-page
  test, however, compares the clamped page with the raw argument. So with
  `--page 0`, an empty first page prints "No more results." instead of
  "No repositories found for query" (`Session.ZeroStartPageSaysNoMore`).
- **Which statuses fail** (src/main.rs:302). The search fails through
  `error_for_status`, which rejects only 4xx and 5xx statuses. Any other
  status goes on to decoding the body. `RateLimit.Settle` states exactly
  this.

## Model

| member | source | states |
|---|---|---|
| Decimal.ParseUnsigned | src/main.rs:293 | a parsed `u64`/`usize` is within range, and the text was an optional '+' followed by digits only; a run of digits, with or without one '+' before it, gives the number it denotes (leading zeros allowed) when that is within range and an error otherwise |
| Decimal.ParseIgnoresZeroAndSign | src/main.rs:155 | a leading zero or a leading '+' before a run of digits does not change the parse, and a lone '+' is an error |
| Decimal.ParseShow | src/main.rs:155 | every number in range parses back from its decimal rendering |
| Decimal.ParsePlusShow | src/main.rs:155 | a leading '+' is accepted, as Rust's unsigned `from_str` accepts it |
| Decimal.ParseRejectsOverflow | src/main.rs:293 | a number past the type's maximum is an error, never a wrapped value |
| Text.Trim | src/main.rs:139 | trimming yields the middle slice of the input, cut only through whitespace, and leaves nothing to trim at either end |
| Text.TrimPadded | src/main.rs:139 | trimming whitespace-padded text that has nothing left to trim gives that text back |
| Text.TrimOfTrimmed | src/main.rs:139 | trimming is idempotent on text with nothing to trim |
| ReleaseFilter.WithReleasesKeepsExactly | src/main.rs:306-312 | the filter keeps each item whose probe succeeds, as often as it occurs, and no other item; the output is an order-preserving subsequence and no longer than the input |
| ReleaseFilter.WithReleasesAppend | src/main.rs:308-312 | each item is judged on its own: filtering a concatenation concatenates the filtered parts |
| ReleaseFilter.DropsOnlyFailedProbe | src/main.rs:306-312 | [A, B, C] with only B's probe failing gives [A, C] |
| ReleaseFilter.FilterWithReleases | src/main.rs:307-314 | the probe-and-push loop computes exactly the filter |
| RateLimit.RetryWait | src/main.rs:289-294 | the wait never exceeds the `u64` maximum, and a missing header gives 5 seconds |
| RateLimit.RetryWaitHonoursHeader | src/main.rs:289-294 | any `retry-after` text that reads as the `u64` n (leading zeros or a '+' included) gives a wait of n |
| RateLimit.RetryWaitFallback | src/main.rs:289-294 | a header that does not parse as a `u64` gives the 5-second fallback |
| RateLimit.Settle | src/main.rs:287-314 | a reply that is not retried succeeds exactly when it arrived with a non-4xx/5xx status and a decodable body, and then yields the release-filtered items; a 4xx/5xx fails with that status, no reply is a transport error, and an undecodable body is a decode error |
| RateLimit.Attempt | src/main.rs:284-300 | from a given attempt on: only 429 replies cause another request, with one wait per 429 as that reply advised, at most 3 requests in all, and the last reply decides the result |
| RateLimit.FetchReposPage | src/main.rs:274-316 | between 1 and 3 requests; every reply but the last was a 429; the waits are those the 429 replies advised; the last reply decides the result |
| RateLimit.RetryThenSucceed | src/main.rs:288-314 | a 429 followed by a good reply gives 2 requests, the advised wait, and the second reply's filtered items |
| RateLimit.PersistentRateLimitFails | src/main.rs:288-302 | three 429s give exactly 3 requests and 3 waits, then a 429 failure |
| RateLimit.OtherErrorNotRetried | src/main.rs:297-302 | a non-429 error status fails after 1 request with no wait |
| ResultCache.LoadCache | src/main.rs:402-412 | loading fails exactly for an unreadable or unparseable file; a missing file or no cache directory loads as an empty cache |
| ResultCache.LoadOrDefault | src/main.rs:245 | a load failure is treated as an empty cache, and a stored cache is used as stored |
| ResultCache.SaveCache | src/main.rs:414-424 | with no cache directory, saving does nothing and succeeds; a failed save is a cache-write error |
| ResultCache.DiskAfterSave | src/main.rs:419-421 | a save that fails at creation leaves the disk as it was; a write that fails after creation leaves a corrupt (truncated) file; a successful save is what the disk holds afterwards |
| ResultCache.SaveThenLoad | src/main.rs:402-424 | a cache saved into a cache directory loads back unchanged |
| ResultCache.Record | src/main.rs:257-268 | the fetched page is stored under its number; other pages and other queries are unchanged; a new entry starts unexhausted; the flag becomes true on a short page and otherwise keeps its old value |
| ResultCache.RecordAfterMissExtends | src/main.rs:246-268 | recording after a cache miss never overwrites a page or lowers a flag |
| ResultCache.Lookup | src/main.rs:246-252 | a hit exactly when the page is cached for the query, returning it as stored; "exhausted" exactly when the query is flagged, the page is uncached, and the page number exceeds the NUMBER of cached pages; an unknown query always misses |
| ResultCache.LookupVetted | src/main.rs:246-249 | a cache hit in a cache of release-bearing repositories is release-bearing |
| ResultCache.RecordVetted | src/main.rs:265 | recording a release-bearing page keeps the cache release-bearing |
| ResultCache.BeyondHighestPageExhausted | src/main.rs:250-252 | when all cached page numbers are at least 1, an exhausted query answers every page past the highest cached one with the empty sequence |
| ResultCache.GapBelowShortPageReadsEmpty | src/main.rs:250-252 | with only page 3 cached and the query exhausted, page 2 is answered as empty, although it was never fetched |
| Search.ClampPerPage | src/main.rs:241 | the page size is forced into 1..100 and left alone inside that range |
| Search.ClampPage | src/main.rs:242 | the page is at least 1 and left alone when already at least 1 |
| Search.SearchRepos | src/main.rs:235-272 | no fetch means no write; a failed fetch writes nothing and is the result; a fetch asks for the clamped size and page; reading the cache never fails a search |
| Search.CacheHitSkipsNetwork | src/main.rs:246-249 | a cached page is returned as stored, with no request and no write |
| Search.ExhaustedSkipsNetwork | src/main.rs:250-252 | an exhausted query with an uncached page past the page count returns the empty sequence, with no request and no write |
| Search.MissFetchesAndRecords | src/main.rs:255-271 | on a miss the page is fetched; when the fetch succeeds, there is a cache directory and the write succeeds, the cache file then holds the loaded cache with the page recorded |
| Search.FetchedSearchSaved | src/main.rs:257-269 | when there is a cache directory, a search that fetched and succeeded leaves the updated cache on disk |
| Search.DamagedCacheActsEmpty | src/main.rs:245 | an unreadable or corrupt cache file gives the same result and fetch as having no file |
| Search.PageZeroIsPageOne | src/main.rs:242 | asking for page 0 is asking for page 1 |
| Search.SecondSearchIsCached | src/main.rs:246-269 | when there is a cache directory, repeating a successful search returns the same result from the cache, with no request |
| Search.ShortPageEndsQuery | src/main.rs:250-267 | provided every page already cached for the query is numbered from 1 up to the page fetched, then once a short page is fetched and saved, every later page of that query is empty, with no request; without that proviso a later page cached beforehand would be answered from the cache |
| Search.SearchExtendsCache | src/main.rs:246-268 | a search only adds to the cache it loaded |
| Search.FetchVetted | src/main.rs:306-314 | every repository a successful fetch returns has a latest release |
| Search.SearchKeepsVetted | src/main.rs:246-268 | from a cache of release-bearing repositories, both the returned page and the cache written are release-bearing |
| Navigation.ParseChoice | src/main.rs:139-159 | after trimming: `n`, `p`, `c` in either case, and only those, are the three commands; any other answer that parses as a `usize` is that number; everything else is unrecognised |
| Navigation.Classify | src/main.rs:141-159 | on an already trimmed answer: each command letter in either case gives its command, and nothing else does; a non-command that parses as a `usize` gives that number; the rest is unrecognised |
| Navigation.Navigate | src/main.rs:139-164 | a selection happens exactly for a non-command answer that is a number from 1 to the page length, and is that displayed repository; cancel exactly for `c`/`C`; only `n`/`p` change the page, which never drops below 1; every other answer is refused with the page kept, and only those are |
| Navigation.PaddingIgnored | src/main.rs:139 | surrounding whitespace does not change what an answer means |
| Navigation.CommandsIgnoreCaseAndSpace | src/main.rs:139-153 | `n`/`N` go forward, `p`/`P` go back only above page 1 and otherwise report the first page, `c`/`C` cancel, each whatever whitespace surrounds them |
| Navigation.LetterCommands | src/main.rs:141-153 | each command letter is read in either case |
| Navigation.NumberSelects | src/main.rs:155-158 | typing the number n of a displayed repository selects the n-th one |
| Navigation.OutOfRangeRefused | src/main.rs:155-164 | a number outside 1 to the page length is refused and the page stays |
| Navigation.OtherInputRefused | src/main.rs:155-164 | any answer that is neither a command letter nor a number from 1 to the page length is refused, with the page kept |
| Session.Rounds | src/main.rs:108-165 | the page stays at least 1; an empty page at any page ends the loop there with "no results" exactly when it is the start page and "no more results" otherwise; a failed search ends it with that error; the chosen repository is on the last page shown |
| Session.Run | src/main.rs:105-165 | the same for the whole loop, which starts at `max(--page, 1)`; an empty first page reports "no results" exactly when that equals the raw `--page`, and a failed first search ends the run with that error |
| Session.RoundsStep | src/main.rs:108-157 | on a non-empty page: no answer left waits; cancel ends with "stopped"; a selection ends with that repository; otherwise the loop goes on at the page the answer chose, with the disk the search left |
| Session.ChosenHasRelease | src/main.rs:108-158 | from a cache of release-bearing repositories, the chosen repository has a latest release |
| Session.EmptyStartPageSaysNoResults | src/main.rs:110-116 | an empty start page, with `--page` at least 1, reports "no results" |
| Session.ZeroStartPageSaysNoMore | src/main.rs:105-116 | with `--page 0`, an empty first page reports "no more results" |
| Session.FirstAnswerChooses | src/main.rs:108-158 | typing a displayed number on the first page chooses that repository |

## Left out

- HTTP client construction, headers, token and timeout (src/main.rs:207-233).
  These are library configuration; only their effect is modelled, as a
  `NoReply` response.
- Network calls and JSON decoding (src/main.rs:287, 304, 318-327). These are
  oracles: the search reply per attempt, with the body decoded or not, and
  the release probe as a boolean per repository name.
- The `sleep` and the async runtime (src/main.rs:296). Only the computed
  waits are recorded.
- The cache file's path and JSON format (src/main.rs:398-424). The file is an
  abstract state that round-trips the cache exactly.
- Reading the query (src/main.rs:85-101). The query is a parameter.
- The OpenAI query suggestion (src/main.rs:357-396). It is a foreign API call.
- Everything after a repository is chosen (src/main.rs:167-204, 329-355):
  the release detail fetch, asset choice, the MB size display (floating
  point) and the streaming download with its progress bar. These are I/O.
- Printed output. Prompts and messages appear only as the `Notice` and
  `Ending` values.
- `gh_page += 1` (src/main.rs:142) is a `usize` and could overflow in
  principle. Page numbers are unbounded `nat`s here.
- `choice.parse::<usize>()` (src/main.rs:155) is modelled with the `u64`
  maximum, that is, for a 64-bit target. On a 32-bit target, numbers past
  `u32::MAX` would be refused sooner; they are far beyond any page length.
- The star count (`u64`) is an unbounded `nat`. It is only displayed.
- Header values are character strings. `to_str` accepting visible ASCII only
  is modelled, but the byte level is not.
- `eq_ignore_ascii_case` compares byte lengths. The model compares character
  counts, which gives the same verdict against the one-byte ASCII letters
  the program uses.
- A failed `write_all` after `File::create` is modelled as leaving a corrupt
  file, that is, a truncated file that no longer parses.
- The release probe is an order-independent function of the repository name.
  The model assumes a repository's answer does not change during a run.
- The search replies are a fixed function of the request and the attempt
  number. A page searched again in the same run therefore gets the same
  replies. This happens when there is no cache directory, after an invalid
  answer, or after `p` on page 1.
- The outcome of writing the cache file is fixed for the whole run.
- An error reading the user's answer (src/main.rs:136-138) aborts the run.
  The answers are a given sequence, so the model has no such ending; running
  out of answers ends as `AwaitingInput`.

=== FILE: decimal.dfy ===
/** Rust's `str::parse` for unsigned integer types (`usize`, `u64`), and the
    decimal rendering it inverts. */
module Decimal {
  import opened Wrappers

  /** The largest `u64` (and, on 64-bit targets, `usize`) value. */
  const U64Max: nat := 0xFFFF_FFFF_FFFF_FFFF

  predicate IsDigit(c: char) {
    '0' <= c <= '9'
  }

  predicate AllDigits(s: string) {
    forall i :: 0 <= i < |s| ==> IsDigit(s[i])
  }

  function DigitValue(c: char): (d: nat)
    requires IsDigit(c)
    ensures d < 10
  {
    (c as int) - ('0' as int)
  }

  function DigitChar(d: nat): (c: char)
    requires d < 10
    ensures IsDigit(c) && DigitValue(c) == d
  {
    ('0' as int + d) as char
  }

  /** The number a non-empty run of decimal digits denotes (leading zeros allowed). */
  function Value(s: string): nat
    requires AllDigits(s)
    decreases |s|
  {
    if |s| == 0 then 0 else 10 * Value(s[..|s| - 1]) + DigitValue(s[|s| - 1])
  }

  /** Parsing as the unsigned `from_str` does: an optional single leading '+',
      then at least one decimal digit and nothing else, and a value that fits
      below `max`. Whitespace, a '-' sign and an empty string are all errors. */
  function ParseUnsigned(s: string, max: nat): (r: Option<nat>)
    ensures r.Some? ==> r.value <= max
    ensures r.Some? ==> |s| > 0 && (IsDigit(s[0]) || s[0] == '+')
    ensures r.Some? ==> forall i :: 0 < i < |s| ==> IsDigit(s[i])
    ensures |s| > 0 && AllDigits(s) ==>
              r == (if Value(s) <= max then Some(Value(s)) else None)
    ensures |s| > 1 && s[0] == '+' && AllDigits(s[1..]) ==>
              r == (if Value(s[1..]) <= max then Some(Value(s[1..])) else None)
  {
    if |s| == 0 then None
    else
      var digits := if s[0] == '+' then s[1..] else s;
      if |digits| == 0 || !AllDigits(digits) then None
      else if Value(digits) <= max then Some(Value(digits))
      else None
  }

  /** The shortest decimal rendering of `n` (Rust's `Display` for integers). */
  function Show(n: nat): (s: string)
    ensures |s| > 0 && AllDigits(s)
    ensures |s| > 1 ==> s[0] != '0'
    decreases n
  {
    if n < 10 then [DigitChar(n)] else Show(n / 10) + [DigitChar(n % 10)]
  }

  /** Rendering then reading back gives the number again. */
  lemma {:induction false} ValueOfShow(n: nat)
    ensures Value(Show(n)) == n
    decreases n
  {
    if n >= 10 {
      ValueOfShow(n / 10);
      var s := Show(n);
      assert s[..|s| - 1] == Show(n / 10);
    }
  }

  /** A leading zero does not change the number a run of digits denotes. */
  lemma {:induction false} ValueLeadingZero(s: string)
    requires AllDigits(s)
    ensures AllDigits(['0'] + s) && Value(['0'] + s) == Value(s)
    decreases |s|
  {
    if |s| > 0 {
      var t := ['0'] + s;
      assert t[..|t| - 1] == ['0'] + s[..|s| - 1];
      ValueLeadingZero(s[..|s| - 1]);
    }
  }

  /** Text that is not the shortest rendering parses to the same number as
      its digits: a leading zero or a leading '+' is ignored, and a '+' with
      no digits after it is an error. */
  lemma ParseIgnoresZeroAndSign(s: string, max: nat)
    requires |s| > 0 && AllDigits(s)
    ensures ParseUnsigned(['0'] + s, max) == ParseUnsigned(s, max)
    ensures ParseUnsigned(['+'] + s, max) == ParseUnsigned(s, max)
    ensures ParseUnsigned("+", max) == None
  {
    ValueLeadingZero(s);
    assert (['+'] + s)[1..] == s;
  }

  /** Every number within the type's range parses back from its rendering. */
  lemma ParseShow(n: nat, max: nat)
    requires n <= max
    ensures ParseUnsigned(Show(n), max) == Some(n)
  {
    ValueOfShow(n);
  }

  /** The parser accepts an explicit '+' sign in front of the digits. */
  lemma ParsePlusShow(n: nat, max: nat)
    requires n <= max
    ensures ParseUnsigned(['+'] + Show(n), max) == Some(n)
  {
    ValueOfShow(n);
    assert (['+'] + Show(n))[1..] == Show(n);
  }

  /** A number past the type's range is an overflow error, not a wrap-around. */
  lemma ParseRejectsOverflow(n: nat, max: nat)
    requires n > max
    ensures ParseUnsigned(Show(n), max) == None
  {
    ValueOfShow(n);
  }
}

=== FILE: domain.dfy ===
/** The records the search pipeline passes around, and the ways it can fail. */
module Domain {
  import opened Wrappers

  /** One repository summary from the search endpoint (`Repo` in the program).
      The star count is informational only; it is displayed and never compared. */
  datatype Repo = Repo(fullName: string, description: Option<string>, stars: nat)

  /** The failures that end a search page and abort the run. */
  datatype Error =
    | Transport            // the request could not be sent or timed out
    | HttpStatus(code: nat) // `error_for_status` rejected a 4xx or 5xx reply
    | Decode               // the search reply body was not the expected JSON
    | CacheRead            // the cache file could not be read or parsed
    | CacheWrite           // the cache file could not be (re)written
}

=== FILE: navigation.dfy ===
/** One turn of the paging prompt in `main`: the user's answer, trimmed and
    compared without regard to ASCII case, moves to the next or previous
    page, cancels, or picks one of the repositories on display. */
module Navigation {
  import opened Wrappers
  import opened Domain
  import opened Text
  import Decimal

  /** What an answer means. */
  datatype Choice = NextPage | PreviousPage | CancelChoice | Number(n: nat) | Unrecognised

  /** The line printed alongside a turn that stays in the loop. */
  datatype Notice = Quiet | AlreadyAtFirstPage | InvalidChoice

  /** Where a turn leads: show `page` next, stop, or proceed with a repository. */
  datatype Turn = Show(page: nat, notice: Notice) | Cancelled | Selected(repo: Repo)

  /** One of the three single-letter commands, in either case. */
  predicate IsLetterCommand(choice: string) {
    EqIgnoreAsciiCase(choice, "n") || EqIgnoreAsciiCase(choice, "p") || EqIgnoreAsciiCase(choice, "c")
  }

  /** A number the answer denotes within 1..count, if any. */
  predicate InRangeNumber(choice: string, count: nat) {
    var n := Decimal.ParseUnsigned(choice, Decimal.U64Max);
    n.Some? && 1 <= n.value <= count
  }

  /** The answer is trimmed, then read: `n`, `p` and `c` in either case are
      the commands, any other answer that parses as a `usize` is a number,
      and everything else is unrecognised. */
  function ParseChoice(input: string): (c: Choice)
    ensures c == NextPage <==> EqIgnoreAsciiCase(Trim(input), "n")
    ensures c == PreviousPage <==> EqIgnoreAsciiCase(Trim(input), "p")
    ensures c == CancelChoice <==> EqIgnoreAsciiCase(Trim(input), "c")
    ensures c.Number? <==> !IsLetterCommand(Trim(input)) && Decimal.ParseUnsigned(Trim(input), Decimal.U64Max).Some?
    ensures c.Number? ==> Decimal.ParseUnsigned(Trim(input), Decimal.U64Max) == Some(c.n)
    ensures c == Unrecognised <==> !IsLetterCommand(Trim(input)) && Decimal.ParseUnsigned(Trim(input), Decimal.U64Max).None?
  {
    Classify(Trim(input))
  }

  /** The commands are tried first, in the order n, p, c; then a `usize`. */
  function Classify(choice: string): (c: Choice)
    ensures c == NextPage <==> EqIgnoreAsciiCase(choice, "n")
    ensures c == PreviousPage <==> EqIgnoreAsciiCase(choice, "p")
    ensures c == CancelChoice <==> EqIgnoreAsciiCase(choice, "c")
    ensures c.Number? <==> !IsLetterCommand(choice) && Decimal.ParseUnsigned(choice, Decimal.U64Max).Some?
    ensures c.Number? ==> Decimal.ParseUnsigned(choice, Decimal.U64Max) == Some(c.n)
    ensures c == Unrecognised <==> !IsLetterCommand(choice) && Decimal.ParseUnsigned(choice, Decimal.U64Max).None?
  {
    LettersDistinct(choice);
    if EqIgnoreAsciiCase(choice, "n") then NextPage
    else if EqIgnoreAsciiCase(choice, "p") then PreviousPage
    else if EqIgnoreAsciiCase(choice, "c") then CancelChoice
    else match Decimal.ParseUnsigned(choice, Decimal.U64Max)
      case Some(n) => Number(n)
      case None => Unrecognised
  }

  /** An answer matches at most one command letter. */
  lemma LettersDistinct(choice: string)
    ensures !(EqIgnoreAsciiCase(choice, "n") && EqIgnoreAsciiCase(choice, "p"))
    ensures !(EqIgnoreAsciiCase(choice, "n") && EqIgnoreAsciiCase(choice, "c"))
    ensures !(EqIgnoreAsciiCase(choice, "p") && EqIgnoreAsciiCase(choice, "c"))
  {
    if |choice| == 1 {
      assert AsciiLower("n"[0]) == 'n' && AsciiLower("p"[0]) == 'p' && AsciiLower("c"[0]) == 'c';
    }
  }

  /** One turn, on a non-empty page `repos` shown as page `page`. */
  function Navigate(page: nat, repos: seq<Repo>, input: string): (t: Turn)
    ensures t.Selected? ==> t.repo in repos
    ensures t.Selected? <==> !IsLetterCommand(Trim(input)) && InRangeNumber(Trim(input), |repos|)
    ensures t.Selected? ==> t.repo == repos[ParseChoice(input).n - 1]
    ensures t.Cancelled? <==> EqIgnoreAsciiCase(Trim(input), "c")
    ensures t.Show? && t.page != page ==>
              EqIgnoreAsciiCase(Trim(input), "n") || EqIgnoreAsciiCase(Trim(input), "p")
    ensures t.Show? && page >= 1 ==> t.page >= 1
    ensures t == Show(page, InvalidChoice)
            <==> !IsLetterCommand(Trim(input)) && !InRangeNumber(Trim(input), |repos|)
  {
    match ParseChoice(input)
    case NextPage => Show(page + 1, Quiet)
    case PreviousPage => if page > 1 then Show(page - 1, Quiet) else Show(page, AlreadyAtFirstPage)
    case CancelChoice => Cancelled
    case Number(n) => if 1 <= n <= |repos| then Selected(repos[n - 1]) else Show(page, InvalidChoice)
    case Unrecognised => Show(page, InvalidChoice)
  }

  /** Any answer that is neither a command letter nor a displayed number is
      refused and the page stays put. */
  lemma OtherInputRefused(page: nat, repos: seq<Repo>, input: string)
    requires !IsLetterCommand(Trim(input))
    requires !InRangeNumber(Trim(input), |repos|)
    ensures Navigate(page, repos, input) == Show(page, InvalidChoice)
  {
  }

  /** Only the trimmed answer matters. */
  lemma PaddingIgnored(pre: string, t: string, post: string)
    requires AllWhitespace(pre) && AllWhitespace(post) && Trimmed(t)
    ensures ParseChoice(pre + t + post) == ParseChoice(t)
  {
    TrimPadded(pre, t, post);
    TrimOfTrimmed(t);
  }

  /** The single-letter commands, in either case and with surrounding
      whitespace, move forward, back, or cancel. */
  lemma CommandsIgnoreCaseAndSpace(pre: string, post: string, page: nat, repos: seq<Repo>, letter: char)
    requires AllWhitespace(pre) && AllWhitespace(post)
    ensures letter in "nN" ==> Navigate(page, repos, pre + [letter] + post) == Show(page + 1, Quiet)
    ensures letter in "pP" && page > 1 ==> Navigate(page, repos, pre + [letter] + post) == Show(page - 1, Quiet)
    ensures letter in "pP" && page <= 1 ==> Navigate(page, repos, pre + [letter] + post) == Show(page, AlreadyAtFirstPage)
    ensures letter in "cC" ==> Navigate(page, repos, pre + [letter] + post) == Cancelled
  {
    if letter in "nNpPcC" {
      PaddingIgnored(pre, [letter], post);
      TrimOfTrimmed([letter]);
      LetterCommands();
      assert ParseChoice(pre + [letter] + post) == Classify([letter]);
    }
  }

  /** How each command letter reads. */
  lemma LetterCommands()
    ensures Classify("n") == NextPage && Classify("N") == NextPage
    ensures Classify("p") == PreviousPage && Classify("P") == PreviousPage
    ensures Classify("c") == CancelChoice && Classify("C") == CancelChoice
  {
  }

  /** The decimal rendering of a number is an answer with nothing to trim
      that is not one of the letter commands. */
  lemma ShownNumberIsNoCommand(n: nat)
    ensures Trimmed(Decimal.Show(n))
    ensures Trim(Decimal.Show(n)) == Decimal.Show(n)
    ensures !EqIgnoreAsciiCase(Decimal.Show(n), "n")
    ensures !EqIgnoreAsciiCase(Decimal.Show(n), "p")
    ensures !EqIgnoreAsciiCase(Decimal.Show(n), "c")
  {
    var s := Decimal.Show(n);
    assert Decimal.IsDigit(s[0]) && Decimal.IsDigit(s[|s| - 1]);
    assert AsciiLower(s[0]) == s[0];
    TrimOfTrimmed(s);
  }

  /** Typing the number of a displayed repository selects that repository. */
  lemma NumberSelects(pre: string, post: string, page: nat, repos: seq<Repo>, n: nat)
    requires AllWhitespace(pre) && AllWhitespace(post)
    requires 1 <= n <= |repos| && n <= Decimal.U64Max
    ensures Navigate(page, repos, pre + Decimal.Show(n) + post) == Selected(repos[n - 1])
  {
    ShownNumberIsNoCommand(n);
    PaddingIgnored(pre, Decimal.Show(n), post);
    Decimal.ParseShow(n, Decimal.U64Max);
  }

  /** A number outside 1..|repos| is refused and the page stays put. */
  lemma OutOfRangeRefused(page: nat, repos: seq<Repo>, n: nat)
    requires n == 0 || n > |repos|
    ensures Navigate(page, repos, Decimal.Show(n)) == Show(page, InvalidChoice)
  {
    ShownNumberIsNoCommand(n);
    if n <= Decimal.U64Max {
      Decimal.ParseShow(n, Decimal.U64Max);
    } else {
      Decimal.ParseRejectsOverflow(n, Decimal.U64Max);
    }
  }
}

=== FILE: rate_limit.dfy ===
/** `fetch_repos_page`: one search request, retried while GitHub answers 429
    (too many requests), at most three requests in all, then the release
    filter. The network is an oracle: `search(req, k)` is the reply to the
    k-th attempt (1-based) of the request `req`. Sleeping is not modelled;
    the wait each 429 asks for is recorded instead. */
module RateLimit {
  import opened Wrappers
  import opened Domain
  import Decimal
  import ReleaseFilter

  const TooManyRequests: nat := 429
  const MaxAttempts: nat := 3
  /** Seconds to wait when a 429 carries no usable `retry-after` header. */
  const DefaultWait: nat := 5

  /** The parameters of one search request (query string, page size, page). */
  datatype Request = Request(query: string, perPage: nat, page: nat)

  /** A reply: either the request never got one, or an HTTP status with the
      `retry-after` header (if present) and the decoded body (`None` when the
      body is not a valid search response). */
  datatype Response =
    | NoReply
    | Http(status: nat, retryAfter: Option<string>, items: Option<seq<Repo>>)

  /** The outside world the search talks to. */
  datatype Network = Network(search: (Request, nat) -> Response, hasRelease: string -> bool)

  /** What one call of `fetch_repos_page` did: how many requests it sent, the
      waits it slept for, and its result. */
  datatype FetchTrace = FetchTrace(attempts: nat, waits: seq<nat>, result: Result<seq<Repo>, Error>)

  predicate RateLimited(r: Response) {
    r.Http? && r.status == TooManyRequests
  }

  /** `error_for_status` fails exactly on client and server errors. */
  predicate IsErrorStatus(status: nat) {
    400 <= status <= 599
  }

  /** `HeaderValue::to_str` succeeds only on visible ASCII (and tab). */
  predicate VisibleAscii(s: string) {
    forall i :: 0 <= i < |s| ==> s[i] == '\t' || (32 <= s[i] as int < 127)
  }

  /** The wait after a 429: `retry-after` read as a `u64`, else the fallback. */
  function RetryWait(header: Option<string>): (w: nat)
    ensures w <= Decimal.U64Max
    ensures header.None? ==> w == DefaultWait
  {
    if header.Some? && VisibleAscii(header.value) then
      match Decimal.ParseUnsigned(header.value, Decimal.U64Max)
      case Some(n) => n
      case None => DefaultWait
    else DefaultWait
  }

  /** A header that reads as a `u64` is honoured to the second, whatever its
      spelling (leading zeros and a '+' sign included). */
  lemma RetryWaitHonoursHeader(h: string, n: nat)
    requires Decimal.ParseUnsigned(h, Decimal.U64Max) == Some(n)
    ensures RetryWait(Some(h)) == n
  {
  }

  /** An unparseable header falls back to the default wait. */
  lemma RetryWaitFallback(header: string)
    requires Decimal.ParseUnsigned(header, Decimal.U64Max).None?
    ensures RetryWait(Some(header)) == DefaultWait
  {
  }

  /** How a reply ends the fetch once it is not retried: no reply and error
      statuses fail, a body that does not decode fails, anything else is
      decoded and passed through the release filter. */
  function Settle(r: Response, hasRelease: string -> bool): (res: Result<seq<Repo>, Error>)
    ensures res.Success? <==> r.Http? && !IsErrorStatus(r.status) && r.items.Some?
    ensures res.Success? ==> res.value == ReleaseFilter.WithReleases(r.items.value, hasRelease)
    ensures r.Http? && IsErrorStatus(r.status) ==> res == Failure(HttpStatus(r.status))
    ensures r.NoReply? ==> res == Failure(Transport)
    ensures r.Http? && !IsErrorStatus(r.status) && r.items.None? ==> res == Failure(Decode)
  {
    match r
    case NoReply => Failure(Transport)
    case Http(status, _, items) =>
      if IsErrorStatus(status) then Failure(HttpStatus(status))
      else if items.None? then Failure(Decode)
      else Success(ReleaseFilter.WithReleases(items.value, hasRelease))
  }

  /** The loop from attempt `attempt` on. */
  function Attempt(net: Network, req: Request, attempt: nat): (t: FetchTrace)
    requires 1 <= attempt <= MaxAttempts
    ensures attempt <= t.attempts <= MaxAttempts
    ensures forall k :: attempt <= k < t.attempts ==> RateLimited(net.search(req, k))
    ensures t.attempts < MaxAttempts ==> !RateLimited(net.search(req, t.attempts))
    ensures t.result == Settle(net.search(req, t.attempts), net.hasRelease)
    ensures |t.waits| == t.attempts - attempt + (if RateLimited(net.search(req, t.attempts)) then 1 else 0)
    ensures forall k :: 0 <= k < |t.waits| ==>
              RateLimited(net.search(req, attempt + k))
              && t.waits[k] == RetryWait(net.search(req, attempt + k).retryAfter)
    decreases MaxAttempts - attempt
  {
    var r := net.search(req, attempt);
    if RateLimited(r) then
      var wait := RetryWait(r.retryAfter);
      if attempt < MaxAttempts then
        var rest := Attempt(net, req, attempt + 1);
        rest.(waits := [wait] + rest.waits)
      else
        // The third 429 falls through to `error_for_status`.
        FetchTrace(attempt, [wait], Settle(r, net.hasRelease))
    else
      FetchTrace(attempt, [], Settle(r, net.hasRelease))
  }

  /** `fetch_repos_page`: at most three requests; every request but the last
      was answered 429; one wait per 429, as that reply advised; the last
      reply alone decides the result. */
  function FetchReposPage(net: Network, req: Request): (t: FetchTrace)
    ensures 1 <= t.attempts <= MaxAttempts
    ensures forall k :: 1 <= k < t.attempts ==> RateLimited(net.search(req, k))
    ensures t.attempts < MaxAttempts ==> !RateLimited(net.search(req, t.attempts))
    ensures t.result == Settle(net.search(req, t.attempts), net.hasRelease)
    ensures |t.waits| == t.attempts - 1 + (if RateLimited(net.search(req, t.attempts)) then 1 else 0)
    ensures forall k :: 0 <= k < |t.waits| ==>
              RateLimited(net.search(req, k + 1))
              && t.waits[k] == RetryWait(net.search(req, k + 1).retryAfter)
  {
    Attempt(net, req, 1)
  }

  /** A 429 followed by a good reply: two requests, the advised wait in
      between, and the second reply's filtered items as the result. */
  lemma RetryThenSucceed(net: Network, req: Request)
    requires RateLimited(net.search(req, 1))
    requires net.search(req, 2).Http? && !IsErrorStatus(net.search(req, 2).status)
    requires net.search(req, 2).items.Some?
    ensures FetchReposPage(net, req).attempts == 2
    ensures FetchReposPage(net, req).waits == [RetryWait(net.search(req, 1).retryAfter)]
    ensures FetchReposPage(net, req).result
            == Success(ReleaseFilter.WithReleases(net.search(req, 2).items.value, net.hasRelease))
  {
    var t := Attempt(net, req, 1);
    assert t.attempts == 2;
  }

  /** Three 429s in a row: exactly three requests, three waits, then failure. */
  lemma PersistentRateLimitFails(net: Network, req: Request)
    requires forall k :: 1 <= k <= MaxAttempts ==> RateLimited(net.search(req, k))
    ensures FetchReposPage(net, req).attempts == MaxAttempts
    ensures |FetchReposPage(net, req).waits| == MaxAttempts
    ensures FetchReposPage(net, req).result == Failure(HttpStatus(TooManyRequests))
  {
  }

  /** Any other error status fails at once, with no retry and no wait. */
  lemma OtherErrorNotRetried(net: Network, req: Request)
    requires net.search(req, 1).Http? && IsErrorStatus(net.search(req, 1).status)
    requires !RateLimited(net.search(req, 1))
    ensures FetchReposPage(net, req).attempts == 1
    ensures FetchReposPage(net, req).waits == []
    ensures FetchReposPage(net, req).result == Failure(HttpStatus(net.search(req, 1).status))
  {
  }
}

=== FILE: release_filter.dfy ===
/** The release filter of `fetch_repos_page`: each repository of a search page
    is probed for a latest release, one request per repository, and only those
    whose probe succeeds are kept, in their original order. The probe is an
    oracle: `hasRelease(fullName)` is true exactly when the "latest release"
    request for that repository would succeed. */
module ReleaseFilter {
  import opened Domain

  /** `sub` can be obtained from `s` by deleting elements (order kept). */
  predicate IsSubsequence<T(==)>(sub: seq<T>, s: seq<T>)
    decreases |s|
  {
    if |sub| == 0 then true
    else if |s| == 0 then false
    else if sub[|sub| - 1] == s[|s| - 1] then IsSubsequence(sub[..|sub| - 1], s[..|s| - 1])
    else IsSubsequence(sub, s[..|s| - 1])
  }

  /** Reference definition of the filter: the repositories whose probe succeeds. */
  function WithReleases(items: seq<Repo>, hasRelease: string -> bool): seq<Repo>
    decreases |items|
  {
    if |items| == 0 then []
    else
      var last := items[|items| - 1];
      WithReleases(items[..|items| - 1], hasRelease) + (if hasRelease(last.fullName) then [last] else [])
  }

  /** The filter commutes with concatenation: each item is judged on its own. */
  lemma {:induction false} WithReleasesAppend(a: seq<Repo>, b: seq<Repo>, hasRelease: string -> bool)
    ensures WithReleases(a + b, hasRelease) == WithReleases(a, hasRelease) + WithReleases(b, hasRelease)
    decreases |b|
  {
    if |b| > 0 {
      var b' := b[..|b| - 1];
      assert (a + b)[..|a + b| - 1] == a + b';
      WithReleasesAppend(a, b', hasRelease);
    } else {
      assert a + b == a;
    }
  }

  /** What the filter keeps: exactly the probed-ok items, each as often as in
      the input, never more items than it was given, in input order. */
  lemma {:induction false} WithReleasesKeepsExactly(items: seq<Repo>, hasRelease: string -> bool)
    ensures |WithReleases(items, hasRelease)| <= |items|
    ensures forall r :: multiset(WithReleases(items, hasRelease))[r]
                        == (if hasRelease(r.fullName) then multiset(items)[r] else 0)
    ensures IsSubsequence(WithReleases(items, hasRelease), items)
    decreases |items|
  {
    if |items| > 0 {
      var init := items[..|items| - 1];
      var last := items[|items| - 1];
      WithReleasesKeepsExactly(init, hasRelease);
      assert items == init + [last];
      var out := WithReleases(items, hasRelease);
      if hasRelease(last.fullName) {
        assert out[..|out| - 1] == WithReleases(init, hasRelease);
      } else {
        assert out == WithReleases(init, hasRelease);
        SubsequenceExtend(out, init, last);
      }
    }
  }

  /** Appending one more element to the longer sequence keeps a subsequence one. */
  lemma {:induction false} SubsequenceExtend<T>(sub: seq<T>, s: seq<T>, x: T)
    requires IsSubsequence(sub, s)
    ensures IsSubsequence(sub, s + [x])
    decreases |s|, 1
  {
    var s' := s + [x];
    assert s'[..|s'| - 1] == s;
    if |sub| > 0 && sub[|sub| - 1] == x {
      SubsequencePrefix(sub, s);
    }
  }

  /** Dropping the last element of a subsequence keeps it a subsequence. */
  lemma {:induction false} SubsequencePrefix<T>(sub: seq<T>, s: seq<T>)
    requires |sub| > 0 && IsSubsequence(sub, s)
    ensures IsSubsequence(sub[..|sub| - 1], s)
    decreases |s|, 0
  {
    var init := sub[..|sub| - 1];
    if |s| > 0 {
      if sub[|sub| - 1] == s[|s| - 1] {
        if |init| > 0 {
          SubsequencePrefix(init, s[..|s| - 1]);
          SubsequenceExtend(init[..|init| - 1], s[..|s| - 1], s[|s| - 1]);
          assert s[..|s| - 1] + [s[|s| - 1]] == s;
        }
      } else {
        SubsequencePrefix(sub, s[..|s| - 1]);
        SubsequenceExtend(init, s[..|s| - 1], s[|s| - 1]);
        assert s[..|s| - 1] + [s[|s| - 1]] == s;
      }
    }
  }

  /** The worked example: [A, B, C] with B's probe failing gives [A, C]. */
  lemma DropsOnlyFailedProbe(a: Repo, b: Repo, c: Repo, hasRelease: string -> bool)
    requires hasRelease(a.fullName) && !hasRelease(b.fullName) && hasRelease(c.fullName)
    ensures WithReleases([a, b, c], hasRelease) == [a, c]
  {
    assert [a, b, c][..2] == [a, b];
    assert [a, b][..1] == [a];
    assert [a][..0] == [];
    assert WithReleases([a], hasRelease) == [a];
    assert WithReleases([a, b], hasRelease) == [a];
  }

  /** The program's loop: probe each repository in turn and push the ones that
      have a release. */
  method FilterWithReleases(items: seq<Repo>, hasRelease: string -> bool) returns (kept: seq<Repo>)
    ensures kept == WithReleases(items, hasRelease)
  {
    kept := [];
    var i := 0;
    while i < |items|
      invariant i <= |items|
      invariant kept == WithReleases(items[..i], hasRelease)
    {
      assert items[..i + 1][..i] == items[..i];
      if hasRelease(items[i].fullName) {
        kept := kept + [items[i]];
      }
      i := i + 1;
    }
    assert items[..i] == items;
  }
}

=== FILE: result_cache.dfy ===
/** The on-disk result cache of `search_repos`: per exact query string, the
    pages fetched so far and whether the results are known to be exhausted.
    The file itself is abstract: it is absent, unreadable, corrupt, or holds
    a cache; writing it either succeeds or fails in a stated way. */
module ResultCache {
  import opened Wrappers
  import opened Domain

  /** `QueryCache`: fetched pages by page number, and the exhaustion flag. */
  datatype QueryCache = QueryCache(pages: map<nat, seq<Repo>>, fullyFetched: bool)

  /** `Cache`: one entry per exact query string. */
  datatype Cache = Cache(queries: map<string, QueryCache>)

  const EmptyCache := Cache(map[])

  /** The state of the cache file. `NoCacheDir` is a platform with no user
      cache directory: nothing is ever read or written there. `Missing` is a
      file that `File::open` cannot open, for any reason (absent, or not
      permitted). `Unreadable` is a file that opened but whose reading
      failed (an I/O error, or contents that are not UTF-8); `Corrupt` is
      one read in full whose JSON does not parse as a cache. */
  datatype CacheFile = NoCacheDir | Missing | Unreadable | Corrupt | Holds(cache: Cache)

  /** How writing the file goes: fine, failing before the file is touched
      (directory or file creation), or failing after `File::create` has
      truncated it, which leaves a file that no longer parses. */
  datatype WriteOutcome = Writes | CreateFails | WriteFails

  datatype Disk = Disk(file: CacheFile, write: WriteOutcome)

  /** `load_cache`: a missing file (or no cache directory) is an empty cache;
      a file that cannot be read or parsed is an error. */
  function LoadCache(file: CacheFile): (r: Result<Cache, Error>)
    ensures r.Failure? <==> file.Unreadable? || file.Corrupt?
    ensures file.Missing? || file.NoCacheDir? ==> r == Success(EmptyCache)
    ensures file.Holds? ==> r == Success(file.cache)
  {
    match file
    case NoCacheDir => Success(EmptyCache)
    case Missing => Success(EmptyCache)
    case Unreadable => Failure(CacheRead)
    case Corrupt => Failure(CacheRead)
    case Holds(c) => Success(c)
  }

  /** `load_cache().unwrap_or_default()`: every load failure reads as empty. */
  function LoadOrDefault(file: CacheFile): (c: Cache)
    ensures file.Holds? ==> c == file.cache
    ensures !file.Holds? ==> c == EmptyCache
  {
    match LoadCache(file)
    case Success(c) => c
    case Failure(_) => EmptyCache
  }

  /** `save_cache`: the whole cache is rewritten; with no cache directory
      nothing happens and the save still succeeds. */
  function SaveCache(disk: Disk, c: Cache): (r: Result<Disk, Error>)
    ensures r.Success? ==> r.value.write == disk.write
    ensures disk.file.NoCacheDir? ==> r == Success(disk)
    ensures r.Failure? ==> r.error == CacheWrite
  {
    if disk.file.NoCacheDir? then Success(disk)
    else
      match disk.write
      case Writes => Success(Disk(Holds(c), disk.write))
      case CreateFails => Failure(CacheWrite)
      case WriteFails => Failure(CacheWrite)
  }

  /** The disk after a save, whether it succeeded or not. */
  function DiskAfterSave(disk: Disk, c: Cache): (d: Disk)
    ensures SaveCache(disk, c).Success? ==> d == SaveCache(disk, c).value
    ensures disk.write.CreateFails? ==> d == disk
    ensures !disk.file.NoCacheDir? && disk.write.WriteFails? ==> d == Disk(Corrupt, disk.write)
  {
    if !disk.file.NoCacheDir? && disk.write.WriteFails? then Disk(Corrupt, disk.write) else
    match SaveCache(disk, c)
    case Success(d) => d
    case Failure(_) => disk
  }

  /** A successful save into a cache directory loads back unchanged. */
  lemma SaveThenLoad(disk: Disk, c: Cache)
    requires !disk.file.NoCacheDir? && SaveCache(disk, c).Success?
    ensures LoadCache(SaveCache(disk, c).value.file) == Success(c)
  {
  }

  /** What a lookup finds before any request is made. */
  datatype CacheAnswer = Hit(repos: seq<Repo>) | Exhausted | Miss

  /** The cache checks of `search_repos`. The exhaustion test compares the
      page number with the NUMBER of cached pages, not the highest one. */
  function Lookup(c: Cache, query: string, page: nat): (a: CacheAnswer)
    ensures a.Hit? <==> query in c.queries && page in c.queries[query].pages
    ensures a.Hit? ==> a.repos == c.queries[query].pages[page]
    ensures a.Exhausted? <==>
              && query in c.queries && page !in c.queries[query].pages
              && c.queries[query].fullyFetched && page > |c.queries[query].pages.Keys|
    ensures query !in c.queries ==> a.Miss?
  {
    if query !in c.queries then Miss
    else
      var entry := c.queries[query];
      if page in entry.pages then Hit(entry.pages[page])
      else if entry.fullyFetched && page > |entry.pages| then Exhausted
      else Miss
  }

  /** Storing a freshly fetched page: the page is recorded under its number,
      the flag is raised by a short page and never lowered, a new entry starts
      unexhausted, and nothing else in the cache changes. */
  function Record(c: Cache, query: string, page: nat, fetched: seq<Repo>, perPage: nat): (c': Cache)
    ensures c'.queries.Keys == c.queries.Keys + {query}
    ensures forall q :: q in c.queries && q != query ==> c'.queries[q] == c.queries[q]
    ensures page in c'.queries[query].pages && c'.queries[query].pages[page] == fetched
    ensures query in c.queries ==>
              forall p :: p in c.queries[query].pages && p != page ==>
                p in c'.queries[query].pages && c'.queries[query].pages[p] == c.queries[query].pages[p]
    ensures c'.queries[query].pages.Keys
            == (if query in c.queries then c.queries[query].pages.Keys else {}) + {page}
    ensures c'.queries[query].fullyFetched
            <==> |fetched| < perPage || (query in c.queries && c.queries[query].fullyFetched)
  {
    var entry := if query in c.queries then c.queries[query] else QueryCache(map[], false);
    var pages := entry.pages[page := fetched];
    var entry' := if |fetched| < perPage then QueryCache(pages, true) else QueryCache(pages, entry.fullyFetched);
    Cache(c.queries[query := entry'])
  }

  /** `c'` holds every page `c` holds, with the same content, and keeps every
      raised exhaustion flag: pages are facts that are only ever added. */
  ghost predicate Extends(c: Cache, c': Cache) {
    forall q :: q in c.queries ==>
      && q in c'.queries
      && (c.queries[q].fullyFetched ==> c'.queries[q].fullyFetched)
      && forall p :: p in c.queries[q].pages ==>
           p in c'.queries[q].pages && c'.queries[q].pages[p] == c.queries[q].pages[p]
  }

  /** A page fetched after a miss never overwrites anything. */
  lemma RecordAfterMissExtends(c: Cache, query: string, page: nat, fetched: seq<Repo>, perPage: nat)
    requires Lookup(c, query, page).Miss?
    ensures Extends(c, Record(c, query, page, fetched, perPage))
  {
  }

  /** Every cached repository passed the release probe. */
  predicate PageVetted(page: seq<Repo>, hasRelease: string -> bool) {
    forall i :: 0 <= i < |page| ==> hasRelease(page[i].fullName)
  }

  predicate EntryVetted(e: QueryCache, hasRelease: string -> bool) {
    forall p :: p in e.pages ==> PageVetted(e.pages[p], hasRelease)
  }

  predicate CacheVetted(c: Cache, hasRelease: string -> bool) {
    forall q :: q in c.queries ==> EntryVetted(c.queries[q], hasRelease)
  }

  /** Every lookup hit of a vetted cache is a vetted page. */
  lemma LookupVetted(c: Cache, query: string, page: nat, hasRelease: string -> bool)
    requires CacheVetted(c, hasRelease)
    ensures Lookup(c, query, page).Hit? ==> PageVetted(Lookup(c, query, page).repos, hasRelease)
  {
  }

  /** Recording a vetted page keeps the cache vetted. */
  lemma RecordVetted(c: Cache, query: string, page: nat, fetched: seq<Repo>, perPage: nat, hasRelease: string -> bool)
    requires CacheVetted(c, hasRelease) && PageVetted(fetched, hasRelease)
    ensures CacheVetted(Record(c, query, page, fetched, perPage), hasRelease)
  {
  }

  /** At most `hi` distinct page numbers lie in 1..hi. */
  lemma {:induction false} PageCountBound(keys: set<nat>, hi: nat)
    requires forall p :: p in keys ==> 1 <= p <= hi
    ensures |keys| <= hi
    decreases hi
  {
    if hi > 0 {
      var rest := keys - {hi};
      PageCountBound(rest, hi - 1);
    } else {
      assert keys == {};
    }
  }

  /** For a cache whose page numbers are all at least 1 (as every page the
      program stores is), an exhausted query answers every page past its
      highest cached page with the empty sequence, as intended. */
  lemma BeyondHighestPageExhausted(c: Cache, query: string, hi: nat, page: nat)
    requires query in c.queries && c.queries[query].fullyFetched
    requires forall p :: p in c.queries[query].pages ==> 1 <= p <= hi
    requires page > hi
    ensures Lookup(c, query, page) == Exhausted
  {
    PageCountBound(c.queries[query].pages.Keys, hi);
  }

  /** But the test also answers pages BELOW the highest cached one: a run
      started at page 3 that got a short page makes page 2 read as empty,
      although page 2 was never fetched. */
  lemma GapBelowShortPageReadsEmpty(query: string, short: seq<Repo>)
    ensures Lookup(Cache(map[query := QueryCache(map[3 := short], true)]), query, 2) == Exhausted
  {
  }
}

=== FILE: search.dfy ===
/** `search_repos`: clamp the arguments, answer from the cache when it can,
    otherwise fetch the page, record it and rewrite the cache file. */
module Search {
  import opened Wrappers
  import opened Domain
  import opened ResultCache
  import opened RateLimit
  import ReleaseFilter

  /** The hard per-page maximum of the search endpoint. */
  const MaxPerPage: nat := 100

  /** `per_page.min(100).max(1)`. */
  function ClampPerPage(n: nat): (r: nat)
    ensures 1 <= r <= MaxPerPage
    ensures 1 <= n <= MaxPerPage ==> r == n
    ensures n > MaxPerPage ==> r == MaxPerPage
    ensures n == 0 ==> r == 1
  {
    if n > MaxPerPage then MaxPerPage else if n < 1 then 1 else n
  }

  /** `page.max(1)`: page numbers are 1-based and 0 means the first page. */
  function ClampPage(n: nat): (r: nat)
    ensures r >= 1
    ensures n >= 1 ==> r == n
  {
    if n < 1 then 1 else n
  }

  /** One call of `search_repos`: its result, the fetch it made (if any), and
      the disk afterwards. */
  datatype SearchStep = SearchStep(result: Result<seq<Repo>, Error>, fetch: Option<FetchTrace>, disk: Disk)

  function SearchRepos(disk: Disk, net: Network, query: string, perPage: nat, page: nat): (s: SearchStep)
    // The cache file is written only after a fetch, and only if it succeeded.
    ensures s.fetch.None? ==> s.disk == disk
    ensures s.fetch.Some? && s.fetch.value.result.Failure? ==> s.disk == disk && s.result == s.fetch.value.result
    // A fetch asks for the clamped page size and page number.
    ensures s.fetch.Some? ==> s.fetch.value == FetchReposPage(net, Request(query, ClampPerPage(perPage), ClampPage(page)))
    // Reading the cache never fails a search; only a fetch or a save can.
    ensures s.result.Failure? ==> s.fetch.Some?
    ensures s.result.Failure? && s.fetch.value.result.Success? ==> s.result.error == CacheWrite
    // What a successful fetch returns is what the search returns.
    ensures s.result.Success? && s.fetch.Some? ==> s.fetch.value.result == s.result
  {
    var perPage := ClampPerPage(perPage);
    var page := ClampPage(page);
    var cache := LoadOrDefault(disk.file);
    match Lookup(cache, query, page)
    case Hit(repos) => SearchStep(Success(repos), None, disk)
    case Exhausted => SearchStep(Success([]), None, disk)
    case Miss =>
      var t := FetchReposPage(net, Request(query, perPage, page));
      match t.result
      case Failure(e) => SearchStep(Failure(e), Some(t), disk)
      case Success(fetched) =>
        var cache' := Record(cache, query, page, fetched, perPage);
        match SaveCache(disk, cache')
        case Success(disk') => SearchStep(Success(fetched), Some(t), disk')
        case Failure(e) => SearchStep(Failure(e), Some(t), DiskAfterSave(disk, cache'))
  }

  /** A cached page is returned as stored, with no request and no write. */
  lemma CacheHitSkipsNetwork(disk: Disk, net: Network, query: string, perPage: nat, page: nat)
    requires query in LoadOrDefault(disk.file).queries && ClampPage(page) in LoadOrDefault(disk.file).queries[query].pages
    ensures SearchRepos(disk, net, query, perPage, page)
            == SearchStep(Success(LoadOrDefault(disk.file).queries[query].pages[ClampPage(page)]), None, disk)
  {
  }

  /** An exhausted query answers an uncached page past the number of cached
      pages with the empty sequence, with no request and no write. */
  lemma ExhaustedSkipsNetwork(disk: Disk, net: Network, query: string, perPage: nat, page: nat)
    requires query in LoadOrDefault(disk.file).queries && LoadOrDefault(disk.file).queries[query].fullyFetched
    requires ClampPage(page) !in LoadOrDefault(disk.file).queries[query].pages
    requires ClampPage(page) > |LoadOrDefault(disk.file).queries[query].pages|
    ensures SearchRepos(disk, net, query, perPage, page) == SearchStep(Success([]), None, disk)
  {
  }

  /** Otherwise the page is fetched; on success it is recorded in the loaded
      cache and the whole cache is saved. */
  lemma MissFetchesAndRecords(disk: Disk, net: Network, query: string, perPage: nat, page: nat)
    requires Lookup(LoadOrDefault(disk.file), query, ClampPage(page)).Miss?
    ensures var s := SearchRepos(disk, net, query, perPage, page);
            var t := FetchReposPage(net, Request(query, ClampPerPage(perPage), ClampPage(page)));
            && s.fetch == Some(t)
            && (t.result.Success? && !disk.file.NoCacheDir? && disk.write.Writes? ==>
                  && s.result == t.result
                  && s.disk.file == Holds(Record(LoadOrDefault(disk.file), query, ClampPage(page), t.result.value, ClampPerPage(perPage))))
  {
  }

  /** A search that fetched and succeeded left the updated cache on disk. */
  lemma FetchedSearchSaved(disk: Disk, net: Network, query: string, perPage: nat, page: nat)
    requires !disk.file.NoCacheDir?
    requires var s := SearchRepos(disk, net, query, perPage, page);
             s.fetch.Some? && s.result.Success?
    ensures var s := SearchRepos(disk, net, query, perPage, page);
            s.disk == Disk(Holds(Record(LoadOrDefault(disk.file), query, ClampPage(page), s.result.value, ClampPerPage(perPage))), disk.write)
  {
  }

  /** A cache file that cannot be read or parsed behaves like no file at all. */
  lemma DamagedCacheActsEmpty(disk: Disk, net: Network, query: string, perPage: nat, page: nat)
    requires disk.file.Unreadable? || disk.file.Corrupt?
    ensures var s := SearchRepos(disk, net, query, perPage, page);
            var s0 := SearchRepos(Disk(Missing, disk.write), net, query, perPage, page);
            s.result == s0.result && s.fetch == s0.fetch && s.fetch.Some?
  {
  }

  /** Page 0 is page 1. */
  lemma PageZeroIsPageOne(disk: Disk, net: Network, query: string, perPage: nat)
    ensures SearchRepos(disk, net, query, perPage, 0) == SearchRepos(disk, net, query, perPage, 1)
  {
  }

  /** Asking twice fetches once: after a search that fetched and saved, the
      same search is answered from the cache with the same result. */
  lemma SecondSearchIsCached(disk: Disk, net: Network, query: string, perPage: nat, page: nat)
    requires !disk.file.NoCacheDir?
    requires SearchRepos(disk, net, query, perPage, page).result.Success?
    ensures var s1 := SearchRepos(disk, net, query, perPage, page);
            var s2 := SearchRepos(s1.disk, net, query, perPage, page);
            s2.result == s1.result && s2.fetch.None? && s2.disk == s1.disk
  {
  }

  /** Once a page shorter than the page size has been saved, every later page
      of that query is answered empty without a request (given, as in every
      cache the program itself writes when paging up from page 1, that no
      cached page of the query lies past the one fetched). */
  lemma ShortPageEndsQuery(disk: Disk, net: Network, query: string, perPage: nat, page: nat, later: nat)
    requires !disk.file.NoCacheDir?
    requires query in LoadOrDefault(disk.file).queries ==>
               forall p :: p in LoadOrDefault(disk.file).queries[query].pages ==> 1 <= p <= ClampPage(page)
    requires var s := SearchRepos(disk, net, query, perPage, page);
             s.fetch.Some? && s.result.Success? && |s.result.value| < ClampPerPage(perPage)
    requires later > ClampPage(page)
    ensures var s1 := SearchRepos(disk, net, query, perPage, page);
            SearchRepos(s1.disk, net, query, perPage, later) == SearchStep(Success([]), None, s1.disk)
  {
    var s1 := SearchRepos(disk, net, query, perPage, page);
    var c' := Record(LoadOrDefault(disk.file), query, ClampPage(page), s1.result.value, ClampPerPage(perPage));
    FetchedSearchSaved(disk, net, query, perPage, page);
    assert LoadOrDefault(s1.disk.file) == c';
    assert c'.queries[query].fullyFetched;
    BeyondHighestPageExhausted(c', query, ClampPage(page), ClampPage(later));
  }

  /** A search only ever adds to the cache it loaded. */
  lemma SearchExtendsCache(disk: Disk, net: Network, query: string, perPage: nat, page: nat)
    requires SearchRepos(disk, net, query, perPage, page).disk.file.Holds?
    ensures Extends(LoadOrDefault(disk.file), SearchRepos(disk, net, query, perPage, page).disk.file.cache)
  {
  }

  /** Every repository a successful fetch returns passed the release probe. */
  lemma FetchVetted(net: Network, req: Request)
    requires FetchReposPage(net, req).result.Success?
    ensures PageVetted(FetchReposPage(net, req).result.value, net.hasRelease)
  {
    var t := FetchReposPage(net, req);
    var r := net.search(req, t.attempts);
    ReleaseFilter.WithReleasesKeepsExactly(r.items.value, net.hasRelease);
    var fetched := t.result.value;
    forall i | 0 <= i < |fetched| ensures net.hasRelease(fetched[i].fullName) {
      assert multiset(fetched)[fetched[i]] > 0;
    }
  }

  /** Every repository a search returns or caches passed the release probe,
      provided the cache it started from held only such repositories. */
  lemma SearchKeepsVetted(disk: Disk, net: Network, query: string, perPage: nat, page: nat)
    requires CacheVetted(LoadOrDefault(disk.file), net.hasRelease)
    ensures var s := SearchRepos(disk, net, query, perPage, page);
            && (s.result.Success? ==> PageVetted(s.result.value, net.hasRelease))
            && CacheVetted(LoadOrDefault(s.disk.file), net.hasRelease)
  {
    var s := SearchRepos(disk, net, query, perPage, page);
    var req := Request(query, ClampPerPage(perPage), ClampPage(page));
    LookupVetted(LoadOrDefault(disk.file), query, ClampPage(page), net.hasRelease);
    if s.fetch.Some? && s.fetch.value.result.Success? {
      FetchVetted(net, req);
      RecordVetted(LoadOrDefault(disk.file), query, ClampPage(page), s.fetch.value.result.value, ClampPerPage(perPage), net.hasRelease);
    }
  }
}

=== FILE: session.dfy ===
/** The paging loop of `main`: fetch the current page, stop on an empty page,
    otherwise show it and act on the user's next answer. The answers are a
    sequence given up front; running out of them leaves the loop waiting. */
module Session {
  import opened Wrappers
  import opened Domain
  import opened ResultCache
  import opened RateLimit
  import opened Search
  import opened Navigation
  import Decimal

  /** `FETCH_PER_PAGE`: the page size asked of the search, and shown at once. */
  const FetchPerPage: nat := 100

  /** How the loop ended, with what it printed on an empty page. */
  datatype Ending =
    | Chosen(repo: Repo)
    | Stopped               // the user cancelled
    | NoResults             // "No repositories found for query"
    | NoMoreResults         // "No more results."
    | Failed(error: Error)  // a search failed and the run aborts
    | AwaitingInput         // no answers left

  /** The ending, the page it happened on, the page last shown, and the disk. */
  datatype Outcome = Outcome(ending: Ending, page: nat, shown: seq<Repo>, disk: Disk)

  /** The loop from page `page` on, with the answers still to come. */
  function Rounds(argsPage: nat, page: nat, query: string, disk: Disk, net: Network, inputs: seq<string>): (o: Outcome)
    requires page >= 1
    ensures o.page >= 1
    ensures o.ending == NoResults ==> o.page == argsPage
    ensures o.ending == NoMoreResults ==> o.page != argsPage
    ensures o.ending.Chosen? ==> o.ending.repo in o.shown
    // Whatever page it is reached on, an empty page ends the loop there.
    ensures var s := SearchRepos(disk, net, query, FetchPerPage, page);
            s.result == Success([]) ==>
              o == Outcome(if page == argsPage then NoResults else NoMoreResults, page, [], s.disk)
    ensures var s := SearchRepos(disk, net, query, FetchPerPage, page);
            s.result.Failure? ==> o == Outcome(Failed(s.result.error), page, [], s.disk)
    decreases |inputs|
  {
    var s := SearchRepos(disk, net, query, FetchPerPage, page);
    match s.result
    case Failure(e) => Outcome(Failed(e), page, [], s.disk)
    case Success(repos) =>
      if |repos| == 0 then
        Outcome(if page == argsPage then NoResults else NoMoreResults, page, [], s.disk)
      else if |inputs| == 0 then
        Outcome(AwaitingInput, page, repos, s.disk)
      else
        match Navigate(page, repos, inputs[0])
        case Cancelled => Outcome(Stopped, page, repos, s.disk)
        case Selected(r) => Outcome(Chosen(r), page, repos, s.disk)
        case Show(next, _) => Rounds(argsPage, next, query, s.disk, net, inputs[1..])
  }

  /** The whole loop, starting at `args.page.max(1)`. */
  function Run(argsPage: nat, query: string, disk: Disk, net: Network, inputs: seq<string>): (o: Outcome)
    ensures o.page >= 1
    ensures o.ending == NoResults ==> o.page == argsPage
    ensures o.ending == NoMoreResults ==> o.page != argsPage
    ensures o.ending.Chosen? ==> o.ending.repo in o.shown
    ensures var s := SearchRepos(disk, net, query, FetchPerPage, ClampPage(argsPage));
            s.result == Success([]) ==>
              o.page == ClampPage(argsPage)
              && o.ending == (if ClampPage(argsPage) == argsPage then NoResults else NoMoreResults)
    ensures var s := SearchRepos(disk, net, query, FetchPerPage, ClampPage(argsPage));
            s.result.Failure? ==> o == Outcome(Failed(s.result.error), ClampPage(argsPage), [], s.disk)
  {
    Rounds(argsPage, ClampPage(argsPage), query, disk, net, inputs)
  }

  /** One round of the loop: the page is searched and shown, and the next
      answer decides whether to stop (cancel, select) or move on to the page
      `Navigate` chose, with the disk the search left behind. */
  lemma RoundsStep(argsPage: nat, page: nat, query: string, disk: Disk, net: Network, inputs: seq<string>)
    requires page >= 1
    requires var s := SearchRepos(disk, net, query, FetchPerPage, page);
             s.result.Success? && |s.result.value| > 0
    ensures var s := SearchRepos(disk, net, query, FetchPerPage, page);
            var repos := s.result.value;
            var o := Rounds(argsPage, page, query, disk, net, inputs);
            && (|inputs| == 0 ==> o == Outcome(AwaitingInput, page, repos, s.disk))
            && (|inputs| > 0 && Navigate(page, repos, inputs[0]).Cancelled? ==>
                  o == Outcome(Stopped, page, repos, s.disk))
            && (|inputs| > 0 && Navigate(page, repos, inputs[0]).Selected? ==>
                  o == Outcome(Chosen(Navigate(page, repos, inputs[0]).repo), page, repos, s.disk))
            && (|inputs| > 0 && Navigate(page, repos, inputs[0]).Show? ==>
                  o == Rounds(argsPage, Navigate(page, repos, inputs[0]).page, query, s.disk, net, inputs[1..]))
  {
  }

  /** Starting from a cache of release-bearing repositories (an empty one
      included), the repository chosen has a latest release. */
  lemma {:induction false} ChosenHasRelease(argsPage: nat, page: nat, query: string, disk: Disk, net: Network, inputs: seq<string>)
    requires page >= 1
    requires CacheVetted(LoadOrDefault(disk.file), net.hasRelease)
    ensures var o := Rounds(argsPage, page, query, disk, net, inputs);
            o.ending.Chosen? ==> net.hasRelease(o.ending.repo.fullName)
    decreases |inputs|
  {
    var s := SearchRepos(disk, net, query, FetchPerPage, page);
    SearchKeepsVetted(disk, net, query, FetchPerPage, page);
    if s.result.Success? && |s.result.value| > 0 && |inputs| > 0 {
      match Navigate(page, s.result.value, inputs[0])
      case Cancelled =>
      case Selected(r) =>
        var i :| 0 <= i < |s.result.value| && s.result.value[i] == r;
      case Show(next, _) =>
        ChosenHasRelease(argsPage, next, query, s.disk, net, inputs[1..]);
    }
  }

  /** An empty first page reports "no results" when the start page was given
      as 1 or more. */
  lemma EmptyStartPageSaysNoResults(argsPage: nat, query: string, disk: Disk, net: Network, inputs: seq<string>)
    requires argsPage >= 1
    requires SearchRepos(disk, net, query, FetchPerPage, argsPage).result == Success([])
    ensures Run(argsPage, query, disk, net, inputs).ending == NoResults
  {
  }

  /** An empty first page reports "no more results" when the start page was
      given as 0: the loop compares the clamped page with the raw argument. */
  lemma ZeroStartPageSaysNoMore(query: string, disk: Disk, net: Network, inputs: seq<string>)
    requires SearchRepos(disk, net, query, FetchPerPage, 1).result == Success([])
    ensures Run(0, query, disk, net, inputs).ending == NoMoreResults
  {
  }

  /** Typing a displayed number on the first page chooses that repository,
      with no further request. */
  lemma FirstAnswerChooses(argsPage: nat, query: string, disk: Disk, net: Network, n: nat)
    requires var s := SearchRepos(disk, net, query, FetchPerPage, ClampPage(argsPage));
             s.result.Success? && 1 <= n <= |s.result.value| && n <= Decimal.U64Max
    ensures var s := SearchRepos(disk, net, query, FetchPerPage, ClampPage(argsPage));
            Run(argsPage, query, disk, net, [Decimal.Show(n)]).ending == Chosen(s.result.value[n - 1])
  {
    var s := SearchRepos(disk, net, query, FetchPerPage, ClampPage(argsPage));
    NumberSelects("", "", ClampPage(argsPage), s.result.value, n);
    assert "" + Decimal.Show(n) + "" == Decimal.Show(n);
  }
}

=== FILE: text.dfy ===
/** The string operations the choice prompt applies to user input: Rust's
    `str::trim` (Unicode White_Space at both ends) and
    `str::eq_ignore_ascii_case`. */
module Text {

  /** The characters with the Unicode White_Space property, which `trim` strips. */
  predicate IsWhitespace(c: char) {
    var n := c as int;
    || 0x09 <= n <= 0x0D
    || n == 0x20 || n == 0x85 || n == 0xA0 || n == 0x1680
    || 0x2000 <= n <= 0x200A
    || n == 0x2028 || n == 0x2029 || n == 0x202F || n == 0x205F || n == 0x3000
  }

  predicate AllWhitespace(s: string) {
    forall i :: 0 <= i < |s| ==> IsWhitespace(s[i])
  }

  /** How many whitespace characters `s` starts with. */
  function LeadingSpace(s: string): (n: nat)
    ensures n <= |s|
    ensures forall k :: 0 <= k < n ==> IsWhitespace(s[k])
    ensures n < |s| ==> !IsWhitespace(s[n])
    decreases |s|
  {
    if |s| == 0 || !IsWhitespace(s[0]) then 0 else 1 + LeadingSpace(s[1..])
  }

  /** How many whitespace characters `s` ends with. */
  function TrailingSpace(s: string): (n: nat)
    ensures n <= |s|
    ensures forall k :: |s| - n <= k < |s| ==> IsWhitespace(s[k])
    ensures n < |s| ==> !IsWhitespace(s[|s| - n - 1])
    decreases |s|
  {
    if |s| == 0 || !IsWhitespace(s[|s| - 1]) then 0 else 1 + TrailingSpace(s[..|s| - 1])
  }

  /** A string with nothing left to trim. */
  predicate Trimmed(t: string) {
    |t| > 0 ==> !IsWhitespace(t[0]) && !IsWhitespace(t[|t| - 1])
  }

  /** `s` with its leading and trailing whitespace removed: the middle slice
      of `s` that starts after its leading whitespace, with only whitespace
      after it and nothing left to trim. */
  function Trim(s: string): (t: string)
    ensures Trimmed(t)
    ensures LeadingSpace(s) + |t| <= |s|
    ensures t == s[LeadingSpace(s)..LeadingSpace(s) + |t|]
    ensures AllWhitespace(s[..LeadingSpace(s)]) && AllWhitespace(s[LeadingSpace(s) + |t|..])
  {
    var i := LeadingSpace(s);
    var a := s[i..];
    var t := a[..|a| - TrailingSpace(a)];
    assert t == s[i..i + |t|];
    assert s[i + |t|..] == a[|t|..];
    assert |t| > 0 ==> t[0] == s[i];
    t
  }

  /** Any count with the properties of `LeadingSpace` is that count. */
  lemma LeadingSpaceUnique(s: string, n: nat)
    requires n <= |s| && forall k :: 0 <= k < n ==> IsWhitespace(s[k])
    requires n < |s| ==> !IsWhitespace(s[n])
    ensures LeadingSpace(s) == n
  {
  }

  /** Any count with the properties of `TrailingSpace` is that count. */
  lemma TrailingSpaceUnique(s: string, n: nat)
    requires n <= |s| && forall k :: |s| - n <= k < |s| ==> IsWhitespace(s[k])
    requires n < |s| ==> !IsWhitespace(s[|s| - n - 1])
    ensures TrailingSpace(s) == n
  {
  }

  /** Whitespace around an already trimmed string is exactly what `Trim` removes. */
  lemma TrimPadded(pre: string, t: string, post: string)
    requires AllWhitespace(pre) && AllWhitespace(post) && Trimmed(t)
    ensures Trim(pre + t + post) == t
  {
    var s := pre + t + post;
    if |t| == 0 {
      assert AllWhitespace(s) by {
        forall i | 0 <= i < |s| ensures IsWhitespace(s[i]) {
          if i < |pre| { assert s[i] == pre[i]; } else { assert s[i] == post[i - |pre|]; }
        }
      }
      assert s[..|s|] == s;
      LeadingSpaceUnique(s, |s|);
    } else {
      assert s[..|pre|] == pre;
      assert s[|pre|] == t[0];
      LeadingSpaceUnique(s, |pre|);
      var a := s[|pre|..];
      assert a == t + post;
      assert a[|a| - |post|..] == post;
      assert a[|a| - |post| - 1] == t[|t| - 1];
      TrailingSpaceUnique(a, |post|);
      assert a[..|a| - |post|] == t;
    }
  }

  /** Trimming is idempotent on what it produces. */
  lemma TrimOfTrimmed(t: string)
    requires Trimmed(t)
    ensures Trim(t) == t
  {
    TrimPadded("", t, "");
    assert "" + t + "" == t;
  }

  /** `to_ascii_lowercase` on one character: only 'A'..'Z' change. */
  function AsciiLower(c: char): char {
    if 'A' <= c <= 'Z' then (c as int + 32) as char else c
  }

  /** Equal up to ASCII case. The program compares against one-byte ASCII
      literals, so comparing character counts matches its byte-length test. */
  predicate EqIgnoreAsciiCase(a: string, b: string) {
    |a| == |b| && forall i :: 0 <= i < |a| ==> AsciiLower(a[i]) == AsciiLower(b[i])
  }
}

=== FILE: wrappers.dfy ===
/** Failure-carrying values shared by the rest of the model. */
module Wrappers {

  /** An optional value: Rust's `Option<T>`. */
  datatype Option<+T> = None | Some(value: T)

  /** A value or an error: Rust's `Result<T, E>` (here `anyhow::Result`). */
  datatype Result<+T, +E> = Success(value: T) | Failure(error: E)
}
